=== FILE: README.md ===
# Credentials timeline — a Dafny model

This project models the logic inside the portfolio's credentials timeline
renderer. The renderer draws a vertical rope and one list item per credential
card. It then keeps a curved connector between each item's marker dot and its
card box up to date while the page scrolls, resizes and cards are dragged.

The model has seven modules:

- `Geometry` defines one connector. It is a cubic curve `{start, cp1, cp2, end}`
  computed from the container's bounding box and the marker and card boxes.
  All points are in container-local coordinates, and arithmetic is exact `real`.
- `Connectors` defines one redraw pass. The pass clears the surface, then draws
  one connector for each item that has both a marker and a card box, in item
  order. Items missing either element are skipped. `Redraw` is the loop the
  frame callback runs.
- `Scheduler` is the one-bit frame coalescer. Its `scheduled` flag is paired
  with a count of frame callbacks that have been queued and not yet run.
- `Drag` holds one card's drag offset and the clamp that keeps the offset on a
  disc of radius 120.
- `Render` maps cards to list items, one per card in dataset order. It also
  holds the shipped six-card dataset.
- `Timeline` is the whole mounted component as one event-driven state machine.
  Its events are scroll, resize, the resize debounce timer, animation frames,
  drag start/move/end, the post-drag settle timer and visibility reports.
- `Options` holds the `Option` type for element lookups that can come back
  empty.

`Math.hypot` cannot be computed in exact arithmetic without a square root. The
model therefore takes the hypot value `h` as a parameter, under the requirement
`h >= 0 && h*h == x*x + y*y`. A `DragMove` event carries this value. The layout
engine is external too, so a `Frame` event carries the bounding boxes that the
frame reads.

Three details of the code shape the model:

- The visibility observer never stops watching an item (credentials.js:86-97).
  So a card sparkles on every report that it intersects the viewport, not only
  the first. `Timeline.RevealSparklesOnEveryEntry` shows two bursts when a card
  goes in, out and in again.
- At drag end, `anime.remove` (credentials.js:159) cancels only the running
  snap-back animation. It does not cancel the 920 ms `setTimeout` of
  credentials.js:163. Several settle timers can therefore be pending at once,
  and `settlePending` counts them.
- Drag end requests no redraw itself. The redraw comes only when its settle
  timer fires.

## Model

| member | source | states |
|---|---|---|
| Geometry.ConnectorOf | credentials.js:56-74 | Mapped back to viewport (client) coordinates, the start is the marker's centre and the end's y is the card box's vertical centre. The end's x is the box's right edge exactly when the box's left is strictly left of the container's mid-x; otherwise, including equality, it is the left edge. cp1 keeps start.y and cp2 keeps end.y. Both control points are pulled by the same amount, 0.35 times the horizontal span, with cp1.x >= start.x and cp2.x <= end.x. For a left-to-right curve, cp1.x <= cp2.x. |
| Geometry.TranslationInvariant | credentials.js:58-69 | Shifting the container and both boxes by the same vector leaves the connector unchanged, so only relative positions matter. |
| Geometry.BoundaryAttachesLeftEdge | credentials.js:62-68 | A box starting exactly on the centre line attaches by its left edge, which lies at half the container width. |
| Connectors.CountComplete | credentials.js:52-55 | The number of items with both elements is never more than the number of items. |
| Connectors.CompleteIndices | credentials.js:52-55 | The indices of items with both a marker and a card box are strictly increasing. They include every such item and no other. |
| Connectors.Pass | credentials.js:49-81 | A pass draws exactly as many connectors as there are items with both elements. |
| Connectors.PassFollowsCompleteItems | credentials.js:52-80 | The k-th connector of a pass is the connector of the k-th complete item, so incomplete items are skipped without disturbing the rest and the order is the item order. |
| Connectors.PassAppend | credentials.js:52-81 | A pass over two concatenated item lists is the pass over the first followed by the pass over the second, so no item affects another's connector. |
| Connectors.PassOnePerItem | credentials.js:52-80 | When every item has both elements, the pass draws exactly one connector per item, the k-th for the k-th item. |
| Connectors.Redraw | credentials.js:48-81 | The frame's drawing loop removes every earlier child and leaves exactly the pass's connectors for the current geometry, whatever was drawn before. |
| Scheduler.Request | credentials.js:43-46 | A request while scheduled changes nothing. Otherwise it sets the flag and queues exactly one more frame callback. From a valid state it leaves exactly one outstanding. |
| Scheduler.Fire | credentials.js:46-47 | The frame callback takes itself off the queue and clears the flag before drawing, returning a valid scheduler to idle. |
| Scheduler.RequestsCoalesce | credentials.js:43-46 | Any burst of k >= 1 requests has the effect of one request, and a request is idempotent. |
| Scheduler.BurstQueuesOneFrame | credentials.js:42-47 | After any burst of requests from a valid state, exactly one frame is outstanding, and firing it returns to idle. |
| Drag.Clamp | credentials.js:148-153 | The clamped offset lies in the disc of radius 120, in squared form. When the length is at most 120 it is unchanged. When it exceeds 120 the offset is scaled by the factor 120/h, which is strictly between 0 and 1, and lands exactly on the circle. |
| Drag.Move | credentials.js:147-153 | A move adds the pointer delta and the result lies in the disc. If the accumulated length h is at most 120, the result is exactly the accumulated offset. Otherwise it is the accumulated offset scaled by 120/h, which lies exactly on the circle. |
| Drag.ClampIdempotent | credentials.js:150-153 | Clamping an already clamped offset leaves it unchanged. |
| Drag.ClampKeepsDirection | credentials.js:151-153 | The clamped offset is parallel to the accumulated one and points the same way (positive dot product) unless it is zero. |
| Drag.ClampExample | credentials.js:138-153 | An offset (300, 400) of length 500 is clamped to (72, 96), which has length exactly 120. |
| Render.RenderCards | credentials.js:27-39 | Rendering makes exactly one list item per card, in dataset order. Each item's time text is the card's date, and the card can be read back off the item. |
| Render.UnrenderRender | credentials.js:27-39 | Reading the cards back off the rendered list gives back the dataset. |
| Render.RenderAppend | credentials.js:27-39 | Rendering a concatenation of card lists is the concatenation of the renderings. |
| Render.CredentialsTimeline | timeline.js:5-36 | The shipped dataset renders six items dated 2020 through 2025 in order. |
| Render.ThreeCards | credentials.js:27-39 | Cards A, B and C dated 2020, 2021 and 2022 render three items in that order with those dates. |
| Timeline.Mount | credentials.js:6-104 | Mounting builds a list that reads back as the dataset and keeps the reduced-motion preference it was given. It leaves the surface empty and queues exactly the initial redraw frame. No resize or settle timer is pending. Every card has a home offset, no in-view mark and no bursts. |
| Timeline.Step | credentials.js:86-163 | No event changes the rendered list, the reduced-motion preference or the number of per-card entries. |
| Timeline.Run | credentials.js:86-163 | No sequence of events changes the rendered list or the number of per-card entries. |
| Timeline.RunPreservesValid | credentials.js:42-163 | Every state reachable from a valid one is valid: each card's offset lies in the disc, the flag matches the queue, and at most one frame callback is ever outstanding. |
| Timeline.ScrollsCoalesce | credentials.js:105 | Any number k >= 1 of scroll events has the effect of one redraw request. |
| Timeline.ScrollBurstDrawsOnce | credentials.js:42-81 | After k >= 1 scrolls, the next frame runs exactly one pass. The surface is drawn from that frame's geometry, and the scheduler returns to idle. |
| Timeline.IdleFrameDoesNothing | credentials.js:44-46 | A frame with no callback queued changes nothing. |
| Timeline.FrameRedrawsFromScratch | credentials.js:46-81 | The surface after a pass depends only on the frame's geometry, never on what was drawn before, so identical geometry gives identical connectors. Each pass counts once. A frame leaves every offset, mark, burst count and timer unchanged. |
| Timeline.OnlyFrameDraws | credentials.js:86-163 | No event other than a frame changes the surface or the pass count: every handler other than the frame callback only requests drawing. |
| Timeline.FrameDrawsOnePerCard | credentials.js:49-81 | A frame over the rendered list's geometry, with every item having its marker and card box, draws exactly one connector per rendered card. The k-th connector is the k-th item's. |
| Timeline.DragStartNoOp | credentials.js:144-146 | Drag start leaves the logical state exactly as it was. |
| Timeline.DragMoveEffect | credentials.js:140-156 | A move keeps the dragged card in the disc. It gives the accumulated offset when that is at most 120 long, and otherwise scales it by 120/h onto the circle. It requests a redraw and leaves every other card's offset unchanged. Marks, bursts and both timers are untouched. |
| Timeline.DragEndSettles | credentials.js:157-163 | Drag end resets the card's offset to exactly (0, 0) and requests nothing yet. It arms exactly one more settle timer and leaves marks, bursts, the resize timer and other cards' offsets unchanged. The settle timer then requests one redraw. |
| Timeline.ResizesArmOneTimer | credentials.js:103-104 | Any burst of k >= 1 resize events only arms the debounce timer, exactly as a single resize does, and requests nothing yet. |
| Timeline.ResizeDebounced | credentials.js:103-104 | After any burst of k >= 1 resizes, the timer's firing requests one redraw and disarms the timer. A second firing changes nothing more. |
| Timeline.VisibilityEffect | credentials.js:86-95 | A visibility report never clears the reported card's mark, and a visible report sets it. Every visible report adds one sparkle burst unless reduced motion is preferred. Other cards' marks and bursts are unchanged. A report requests no redraw and leaves offsets and timers unchanged. |
| Timeline.InViewMonotone | credentials.js:86-163 | Over any sequence of events, a card's in-view mark stays set once set, and its burst count never decreases: no handler removes the mark. |
| Timeline.RevealSparklesOnEveryEntry | credentials.js:86-97 | A card reported visible, then invisible, then visible again sparkles twice and ends marked in view. |

## Left out

- DOM construction: element creation, attributes, the rope and SVG element
  setup, CSS classes other than `in-view`, and the SVG stroke attributes and
  path-string formatting. The model keeps the connector as a record.
- The heading, description and date are written with `innerHTML` and are not
  escaped. The model treats them as plain text, so markup inside a card's text
  is not modelled.
- The dataset's `id`, `title` and `type` are carried in `Section` but the
  renderer never uses them.
- The marker dot is not a field of `ListItem`: it carries no data. The
  element's identity is not modelled.
- Layout is not modelled. Bounding boxes come in with each `Frame` event, and
  the model does not tie a card's drag offset to its box position.
- IntersectionObserver, interact.js and anime.js are treated as event sources
  and sinks. This covers the 12% visibility threshold, the elastic snap-back
  animation and its `anime.remove` cancellation.
- The 120 ms resize timer, the 920 ms settle timer and `requestAnimationFrame`
  are abstract "fires" events, not wall-clock time. The 1200 ms sparkle
  clean-up timer has no event: it is left out together with the sparkles.
- The sparkle particles are random and animated, so they are not modelled.
  Only the count of bursts per card is kept: zero when reduced motion is
  preferred, otherwise one per visible report. The 8 particles of each
  burst are not represented. The `if (dot)` guard in the reveal handler
  is not modelled, because rendered items always have a dot.
- Drag start only sets a style hint, so `DragStart` is a no-op on the logical
  state.
- IEEE-754 rounding is not modelled. The arithmetic is exact `real`.
- `Drag.Clamp`: `Math.hypot` is not computed. Its value is a parameter required
  to be the non-negative square root of the sum of squares.
- The `DOMContentLoaded` bootstrap is not modelled, and neither is the silent
  no-op when the mount element is missing.
- `Timeline.Run` drops events the host never produces. These are events that
  name a card that does not exist, and `DragMove` events whose `hyp` is not the
  length of the card's accumulated offset.

=== FILE: connectors.dfy ===
/** One redraw pass over the drawing surface.

    The pass clears the surface and then walks the list items in document
    order.  An item whose marker or card box cannot be found is skipped; every
    other item contributes exactly one connector.
 */
module Connectors {
  import opened Options
  import opened Geometry

  /** The live geometry of one list item: the bounding boxes of its marker
      and its card box, each absent when the lookup finds no element. */
  datatype Item = Item(marker: Option<Rect>, content: Option<Rect>)

  /** The live geometry a frame sees: the container box and the items. */
  datatype Layout = Layout(container: Rect, items: seq<Item>)

  predicate Complete(it: Item) {
    it.marker.Some? && it.content.Some?
  }

  function ConnectorOfItem(container: Rect, it: Item): Connector
    requires Complete(it)
  {
    ConnectorOf(container, it.marker.value, it.content.value)
  }

  function CountComplete(items: seq<Item>): (n: nat)
    ensures n <= |items|
  {
    if |items| == 0 then 0
    else CountComplete(items[..|items| - 1]) + (if Complete(items[|items| - 1]) then 1 else 0)
  }

  /** The positions of the complete items, in increasing order. */
  function CompleteIndices(items: seq<Item>): (idx: seq<nat>)
    ensures |idx| == CountComplete(items)
    ensures forall k :: 0 <= k < |idx| ==> idx[k] < |items| && Complete(items[idx[k]])
    ensures forall k, l :: 0 <= k < l < |idx| ==> idx[k] < idx[l]
    ensures forall j :: 0 <= j < |items| && Complete(items[j]) ==> j in idx
  {
    if |items| == 0 then []
    else
      var last := |items| - 1;
      var front := CompleteIndices(items[..last]);
      assert forall k :: 0 <= k < |front| ==> items[..last][front[k]] == items[front[k]];
      front + (if Complete(items[last]) then [last] else [])
  }

  /** The connectors a pass draws, in item order. */
  function Pass(container: Rect, items: seq<Item>): (paths: seq<Connector>)
    ensures |paths| == CountComplete(items)
  {
    if |items| == 0 then []
    else
      var last := items[|items| - 1];
      Pass(container, items[..|items| - 1])
        + (if Complete(last) then [ConnectorOfItem(container, last)] else [])
  }

  /** The k-th connector of a pass belongs to the k-th complete item. */
  lemma {:induction false} PassFollowsCompleteItems(container: Rect, items: seq<Item>)
    ensures |Pass(container, items)| == |CompleteIndices(items)|
    ensures forall k :: 0 <= k < |Pass(container, items)| ==>
      Pass(container, items)[k] == ConnectorOfItem(container, items[CompleteIndices(items)[k]])
  {
    if |items| > 0 {
      var last := |items| - 1;
      var front := items[..last];
      PassFollowsCompleteItems(container, front);
      var idx := CompleteIndices(items);
      var p := Pass(container, items);
      forall k | 0 <= k < |p|
        ensures p[k] == ConnectorOfItem(container, items[idx[k]])
      {
        if k < |Pass(container, front)| {
          assert front[CompleteIndices(front)[k]] == items[idx[k]];
        }
      }
    }
  }

  /** A pass over the concatenation of two item lists draws the first list's
      connectors, then the second's: no item influences another. */
  lemma {:induction false} PassAppend(container: Rect, a: seq<Item>, b: seq<Item>)
    ensures Pass(container, a + b) == Pass(container, a) + Pass(container, b)
  {
    if |b| > 0 {
      var last := |b| - 1;
      assert (a + b)[..|a + b| - 1] == a + b[..last];
      assert (a + b)[|a + b| - 1] == b[last];
      PassAppend(container, a, b[..last]);
    } else {
      assert a + b == a;
    }
  }

  /** When every item has both elements, as right after rendering, the pass
      draws exactly one connector per item, the k-th for the k-th item. */
  lemma {:induction false} PassOnePerItem(container: Rect, items: seq<Item>)
    requires forall j :: 0 <= j < |items| ==> Complete(items[j])
    ensures |Pass(container, items)| == |items|
    ensures forall k :: 0 <= k < |items| ==>
      Pass(container, items)[k] == ConnectorOfItem(container, items[k])
  {
    if |items| > 0 {
      PassOnePerItem(container, items[..|items| - 1]);
    }
  }

  /** The frame callback's drawing step: remove every child of the surface,
      then append one connector per complete item. */
  method Redraw(surface: seq<Connector>, layout: Layout) returns (drawn: seq<Connector>)
    ensures drawn == Pass(layout.container, layout.items)
  {
    drawn := surface;
    while |drawn| > 0
      decreases |drawn|
    {
      drawn := drawn[1..];
    }
    var items := layout.items;
    var i := 0;
    while i < |items|
      invariant 0 <= i <= |items|
      invariant drawn == Pass(layout.container, items[..i])
    {
      assert items[..i + 1][..i] == items[..i];
      var it := items[i];
      if it.marker.Some? && it.content.Some? {
        drawn := drawn + [ConnectorOf(layout.container, it.marker.value, it.content.value)];
      }
      i := i + 1;
    }
    assert items[..|items|] == items;
  }
}

=== FILE: drag.dfy ===
/** Drag offset of one card box.

    A drag move adds the pointer delta to the card's offset and then pulls
    the offset back onto the disc of radius `Radius` around the card's home
    position.  The magnitude `Math.hypot(x, y)` is not computed here: it is
    passed in as `h` together with the requirement that it is the length of
    `(x, y)`, that is `h >= 0` and `h * h == x * x + y * y`.
 */
module Drag {

  const Radius: real := 120.0

  datatype Offset = Offset(x: real, y: real)

  const Home := Offset(0.0, 0.0)

  /** `h` is the Euclidean length of `(x, y)`. */
  predicate IsHypot(x: real, y: real, h: real) {
    h >= 0.0 && h * h == x * x + y * y
  }

  function SquaredLength(o: Offset): real {
    o.x * o.x + o.y * o.y
  }

  predicate InDisc(o: Offset) {
    SquaredLength(o) <= Radius * Radius
  }

  /** Two non-negative numbers with the same square are equal. */
  lemma SameSquare(a: real, b: real)
    requires a >= 0.0 && b >= 0.0 && a * a == b * b
    ensures a == b
  {
    assert (a - b) * (a + b) == a * a - b * b;
    if a + b != 0.0 {
      assert a - b == 0.0;
    }
  }

  /** Scaling `(x, y)` by `k` scales its squared length by `k * k`. */
  lemma ScaledSquare(x: real, y: real, k: real)
    ensures (x * k) * (x * k) + (y * k) * (y * k) == (k * k) * (x * x + y * y)
  {
  }

  /** The clamp applied after every move: an offset longer than the radius
      is scaled by the positive factor `Radius / h` onto the circle. */
  function Clamp(x: real, y: real, h: real): (o: Offset)
    requires IsHypot(x, y, h)
    ensures InDisc(o)
    ensures h <= Radius ==> o == Offset(x, y)
    ensures h > Radius ==> SquaredLength(o) == Radius * Radius
    ensures h > Radius ==> 0.0 < Radius / h < 1.0 && o == Offset(x * (Radius / h), y * (Radius / h))
  {
    if h > Radius then
      var k := Radius / h;
      assert k * h == Radius;
      ScaledSquare(x, y, k);
      assert (k * k) * (h * h) == (k * h) * (k * h);
      var o := Offset(x / h * Radius, y / h * Radius);
      assert o == Offset(x * k, y * k);
      o
    else
      assert x * x + y * y <= Radius * Radius by {
        assert h * h <= Radius * h by { MulMono(h, h, Radius); }
        assert Radius * h <= Radius * Radius by { MulMono(Radius, h, Radius); }
      }
      Offset(x, y)
  }

  lemma MulMono(c: real, a: real, b: real)
    requires c >= 0.0 && a <= b
    ensures c * a <= c * b
  {
    assert c * b - c * a == c * (b - a);
  }

  /** One drag move with pointer delta `(dx, dy)`; `h` is the length of the
      accumulated offset. */
  function Move(o: Offset, dx: real, dy: real, h: real): (r: Offset)
    requires IsHypot(o.x + dx, o.y + dy, h)
    ensures InDisc(r)
    ensures h <= Radius ==> r == Offset(o.x + dx, o.y + dy)
    ensures h > Radius ==> SquaredLength(r) == Radius * Radius
    ensures h > Radius ==> r == Offset((o.x + dx) * (Radius / h), (o.y + dy) * (Radius / h))
  {
    Clamp(o.x + dx, o.y + dy, h)
  }

  /** A clamped offset that is clamped again does not move: the clamp is
      idempotent. */
  lemma ClampIdempotent(x: real, y: real, h: real, h': real)
    requires IsHypot(x, y, h)
    requires IsHypot(Clamp(x, y, h).x, Clamp(x, y, h).y, h')
    ensures Clamp(Clamp(x, y, h).x, Clamp(x, y, h).y, h') == Clamp(x, y, h)
  {
    var o := Clamp(x, y, h);
    if h > Radius {
      SameSquare(h', Radius);
    } else {
      SameSquare(h', h);
    }
  }

  /** Clamping keeps the direction: the result is parallel to `(x, y)` and
      points the same way. */
  lemma ClampKeepsDirection(x: real, y: real, h: real)
    requires IsHypot(x, y, h)
    ensures Clamp(x, y, h).x * y == Clamp(x, y, h).y * x
    ensures h > 0.0 ==> Clamp(x, y, h).x * x + Clamp(x, y, h).y * y > 0.0
  {
    var o := Clamp(x, y, h);
    var k := if h > Radius then Radius / h else 1.0;
    assert o == Offset(x * k, y * k);
    assert o.x * x + o.y * y == k * (x * x + y * y);
    if h > 0.0 {
      assert h * h > 0.0;
      assert k * (h * h) > 0.0;
    }
  }

  /** The drag of a card `500` long, three-four-five, ends `120` long in the
      same direction. */
  lemma ClampExample()
    ensures IsHypot(300.0, 400.0, 500.0)
    ensures Clamp(300.0, 400.0, 500.0) == Offset(72.0, 96.0)
    ensures SquaredLength(Offset(72.0, 96.0)) == Radius * Radius
  {
  }
}

=== FILE: geometry.dfy ===
/** Connector geometry of the credentials timeline.

    One connector is a cubic Bezier curve from a timeline marker (the dot on
    the rope) to the card box it belongs to.  Every rectangle is a bounding
    box in viewport (client) coordinates; every point of the connector is in
    coordinates local to the container, whose top-left corner is the origin
    of the drawing surface.  Arithmetic is exact `real` arithmetic.
 */
module Geometry {

  datatype Rect = Rect(left: real, top: real, width: real, height: real)

  datatype Point = Point(x: real, y: real)

  /** A cubic curve descriptor: start, two control points, end. */
  datatype Connector = Connector(start: Point, cp1: Point, cp2: Point, end: Point)

  /** How far each control point is pulled along x, as a share of the
      horizontal span between the end points. */
  const Pull: real := 0.35

  function Abs(v: real): (r: real)
    ensures r >= 0.0
    ensures r == v || r == -v
  {
    if v < 0.0 then -v else v
  }

  function Centre(b: Rect): Point {
    Point(b.left + b.width / 2.0, b.top + b.height / 2.0)
  }

  function RightEdge(b: Rect): real {
    b.left + b.width
  }

  /** The x coordinate of the container's vertical centre line. */
  function MidX(b: Rect): real {
    b.left + b.width / 2.0
  }

  /** Viewport point `p` seen from the container's top-left corner. */
  function ToLocal(container: Rect, p: Point): Point {
    Point(p.x - container.left, p.y - container.top)
  }

  /** Container-local point `p` back in viewport coordinates. */
  function ToClient(container: Rect, p: Point): Point {
    Point(p.x + container.left, p.y + container.top)
  }

  /** True when the card box starts left of the container's centre line, so
      the connector attaches to the box's right edge. Equality counts as the
      right-hand side. */
  predicate OnLeftSide(container: Rect, content: Rect) {
    content.left < MidX(container)
  }

  /** The connector from `marker` to `content` inside `container`. */
  function ConnectorOf(container: Rect, marker: Rect, content: Rect): (c: Connector)
    // the curve starts at the marker's centre
    ensures ToClient(container, c.start) == Centre(marker)
    // it ends at the vertical centre of the card box ...
    ensures ToClient(container, c.end).y == Centre(content).y
    // ... on the edge that faces the centre line
    ensures OnLeftSide(container, content) ==> ToClient(container, c.end).x == RightEdge(content)
    ensures !OnLeftSide(container, content) ==> ToClient(container, c.end).x == content.left
    // control points keep the y of their own end point
    ensures c.cp1.y == c.start.y && c.cp2.y == c.end.y
    // both control points are pulled by the same non-negative amount,
    // outward from the start and inward from the end
    ensures c.start.x <= c.cp1.x && c.cp2.x <= c.end.x
    ensures c.cp1.x - c.start.x == c.end.x - c.cp2.x
    ensures c.cp1.x - c.start.x == Pull * Abs(c.end.x - c.start.x)
    // left-to-right curves keep both control points between the ends
    ensures c.start.x <= c.end.x ==> c.cp1.x <= c.cp2.x
  {
    var start := ToLocal(container, Centre(marker));
    var endX := if OnLeftSide(container, content)
                then RightEdge(content) - container.left
                else content.left - container.left;
    var end := Point(endX, Centre(content).y - container.top);
    var dx := Abs(end.x - start.x);
    Connector(start, Point(start.x + dx * Pull, start.y), Point(end.x - dx * Pull, end.y), end)
  }

  function ShiftRect(b: Rect, tx: real, ty: real): Rect {
    Rect(b.left + tx, b.top + ty, b.width, b.height)
  }

  /** Scrolling or moving the whole timeline leaves the connector unchanged:
      it depends only on the boxes' positions relative to the container. */
  lemma TranslationInvariant(container: Rect, marker: Rect, content: Rect, tx: real, ty: real)
    ensures ConnectorOf(ShiftRect(container, tx, ty), ShiftRect(marker, tx, ty), ShiftRect(content, tx, ty))
         == ConnectorOf(container, marker, content)
  {
  }

  /** A card box starting exactly on the centre line attaches by its left edge. */
  lemma BoundaryAttachesLeftEdge(container: Rect, marker: Rect, content: Rect)
    requires content.left == MidX(container)
    ensures ConnectorOf(container, marker, content).end.x == container.width / 2.0
  {
  }
}

=== FILE: options.dfy ===
/** An element lookup that may find nothing (`querySelector` returning null). */
module Options {

  datatype Option<+T> = None | Some(value: T)
}

=== FILE: render.dfy ===
/** Building the timeline list from the credentials dataset.

    Each card becomes one list item holding a marker dot, a `time` element
    whose text is the card's date, and a card box holding the heading and
    the description.  Items appear in dataset order.
 */
module Render {

  datatype Card = Card(heading: string, date: string, description: string)

  /** The dataset: only `cards` is used by the renderer. */
  datatype Section = Section(id: string, title: string, kind: string, cards: seq<Card>)

  datatype CardBox = CardBox(heading: string, description: string)

  /** One list item; the marker dot carries no data. */
  datatype ListItem = ListItem(time: string, box: CardBox)

  function ItemOf(c: Card): ListItem {
    ListItem(c.date, CardBox(c.heading, c.description))
  }

  /** Reads the card back off a rendered item. */
  function CardOf(it: ListItem): Card {
    Card(it.box.heading, it.time, it.box.description)
  }

  /** The list items, one per card, in dataset order. */
  function RenderCards(cards: seq<Card>): (items: seq<ListItem>)
    ensures |items| == |cards|
    ensures forall i :: 0 <= i < |cards| ==> items[i].time == cards[i].date
    ensures forall i :: 0 <= i < |cards| ==> CardOf(items[i]) == cards[i]
  {
    if |cards| == 0 then []
    else RenderCards(cards[..|cards| - 1]) + [ItemOf(cards[|cards| - 1])]
  }

  function Unrender(items: seq<ListItem>): (cards: seq<Card>)
    ensures |cards| == |items|
  {
    if |items| == 0 then [] else [CardOf(items[0])] + Unrender(items[1..])
  }

  /** The dataset can be read back off the rendered list. */
  lemma {:induction false} UnrenderRender(cards: seq<Card>)
    ensures Unrender(RenderCards(cards)) == cards
  {
    var items := RenderCards(cards);
    UnrenderIndexwise(items);
  }

  lemma {:induction false} UnrenderIndexwise(items: seq<ListItem>)
    ensures forall i :: 0 <= i < |items| ==> Unrender(items)[i] == CardOf(items[i])
  {
    if |items| > 0 {
      UnrenderIndexwise(items[1..]);
    }
  }

  /** Rendering two datasets one after the other is rendering their
      concatenation. */
  lemma {:induction false} RenderAppend(a: seq<Card>, b: seq<Card>)
    ensures RenderCards(a + b) == RenderCards(a) + RenderCards(b)
  {
    if |b| == 0 {
      assert a + b == a;
    } else {
      assert (a + b)[..|a + b| - 1] == a + b[..|b| - 1];
      RenderAppend(a, b[..|b| - 1]);
    }
  }

  const Credentials := Section("credentials", "Credentials", "timeline", [
    Card("First Steps into Design", "2020",
      "Started exploring UI/UX and graphic design using Figma, learning interface basics and modern design principles through self-practice."),
    Card("Began Bachelor’s in Computer Engineering", "2021",
      "Began my Bachelor’s in Computer Engineering at Cosmos College of Management and Technology, diving into programming, systems, and tech fundamentals."),
    Card("Leveling Up in Design Tools", "2022",
      "Expanded my skills in Adobe Illustrator and Canva, learning to combine visual aesthetics with brand-focused design for creative projects."),
    Card("Built ‘Park In’ Prototype", "2023",
      "Designed and developed Park In, a parking assistant app built using Flutter, integrating smart parking flow and user-friendly design."),
    Card("Creative Lead at CosmoFest 2025", "2024",
      "Worked as the lead graphic designer for CosmoFest 2025, creating visual identities and promotional materials—won 1st place in project demonstration competition."),
    Card("Deep Diving into DevOps & Automation", "2025",
      "Pursuing advanced learning in DevOps, automation, Linux, and system reliability while refining UI/UX and development skills.")
  ])

  /** The shipped dataset renders six items dated 2020 to 2025 in order. */
  lemma CredentialsTimeline()
    ensures |RenderCards(Credentials.cards)| == 6
    ensures forall i :: 0 <= i < 6 ==>
      RenderCards(Credentials.cards)[i].time == ["2020", "2021", "2022", "2023", "2024", "2025"][i]
  {
    var items := RenderCards(Credentials.cards);
    assert items[0].time == "2020";
    assert items[1].time == "2021";
    assert items[2].time == "2022";
    assert items[3].time == "2023";
    assert items[4].time == "2024";
    assert items[5].time == "2025";
  }

  /** Three cards A, B, C dated 2020, 2021, 2022 give three items in that
      order with matching dates. */
  lemma ThreeCards()
    ensures RenderCards([Card("A", "2020", ""), Card("B", "2021", ""), Card("C", "2022", "")])
         == [ListItem("2020", CardBox("A", "")), ListItem("2021", CardBox("B", "")),
             ListItem("2022", CardBox("C", ""))]
  {
    var cards := [Card("A", "2020", ""), Card("B", "2021", ""), Card("C", "2022", "")];
    assert cards[..2][..1] == [cards[0]];
    assert cards[..2] == [cards[0], cards[1]];
  }
}

=== FILE: scheduler.dfy ===
/** Frame coalescing of connector redraws.

    `scheduled` is the flag of the source's `rafState`; `queued` counts the
    frame callbacks handed to the host and not yet run.  A redraw request
    queues a callback only when none is outstanding, and the callback clears
    the flag before it draws, so a request made after it has started queues
    the next frame rather than being lost.
 */
module Scheduler {

  datatype Sched = Sched(scheduled: bool, queued: nat)

  const Idle := Sched(false, 0)

  /** The flag is set exactly when one frame callback is outstanding. */
  predicate Valid(s: Sched) {
    s.queued == if s.scheduled then 1 else 0
  }

  /** A call of the redraw request. */
  function Request(s: Sched): (t: Sched)
    ensures s.scheduled ==> t == s
    ensures !s.scheduled ==> t.scheduled && t.queued == s.queued + 1
    ensures Valid(s) ==> Valid(t) && t.queued == 1
  {
    if s.scheduled then s else Sched(true, s.queued + 1)
  }

  /** The queued frame callback starts: it takes itself off the queue and
      clears the flag; the drawing follows. */
  function Fire(s: Sched): (t: Sched)
    requires s.queued > 0
    ensures !t.scheduled && t.queued + 1 == s.queued
    ensures Valid(s) ==> t == Idle
  {
    Sched(false, s.queued - 1)
  }

  /** `k` requests in a row, all before the next frame. */
  function Requests(s: Sched, k: nat): Sched
    decreases k
  {
    if k == 0 then s else Requests(Request(s), k - 1)
  }

  /** Any burst of one or more requests has the effect of a single one. */
  lemma {:induction false} RequestsCoalesce(s: Sched, k: nat)
    requires k >= 1
    decreases k
    ensures Requests(s, k) == Request(s)
    ensures Request(Request(s)) == Request(s)
  {
    if k > 1 {
      RequestsCoalesce(Request(s), k - 1);
    }
  }

  /** From a valid state, a burst of one or more requests leaves exactly one
      frame callback outstanding, and firing it returns to idle. */
  lemma BurstQueuesOneFrame(s: Sched, k: nat)
    requires Valid(s) && k >= 1
    ensures Requests(s, k).queued == 1 && Requests(s, k).scheduled
    ensures Fire(Requests(s, k)) == Idle
  {
    RequestsCoalesce(s, k);
  }
}

=== FILE: timeline.dfy ===
/** The mounted credentials timeline as one state machine.

    The host delivers events: scrolls, resizes, the resize timer, animation
    frames, the three drag callbacks, the post-drag settle timer and
    visibility reports.  Every event handler runs to completion, so a step
    function per event is the whole concurrency story.  The live geometry a
    frame reads is part of the frame event, because the layout engine that
    produces it is outside the model.
 */
module Timeline {
  import opened Geometry
  import opened Connectors
  import opened Scheduler
  import opened Drag
  import opened Render

  datatype Event =
    | Scroll
    | Resize
    | ResizeTimerFires
    | Frame(layout: Layout)
    | DragStart(card: nat)
    | DragMove(card: nat, dx: real, dy: real, hyp: real)
    | DragEnd(card: nat)
    | SettleTimerFires
    | Visibility(card: nat, intersecting: bool)

  datatype State = State(
    items: seq<ListItem>,      // the rendered list, fixed after mounting
    reducedMotion: bool,       // the reduced-motion preference, read once
    sched: Sched,              // redraw coalescing
    resizePending: bool,       // the resize debounce timer is armed
    settlePending: nat,        // post-drag redraw timers not yet fired
    offsets: seq<Offset>,      // logical drag offset per card
    inView: seq<bool>,         // the `in-view` mark per card
    bursts: seq<nat>,          // sparkle bursts emitted per card
    surface: seq<Connector>,   // the connectors currently drawn
    passes: nat)               // redraw passes run so far

  /** Per-card state exists for every card, at most one frame callback is
      outstanding, and every card's offset lies in the drag disc. */
  predicate Valid(s: State) {
    && |s.offsets| == |s.items|
    && |s.inView| == |s.items|
    && |s.bursts| == |s.items|
    && Scheduler.Valid(s.sched)
    && forall i :: 0 <= i < |s.offsets| ==> InDisc(s.offsets[i])
  }

  /** Mounting: build the list, clear the surface and request the first
      redraw. */
  function Mount(section: Section, reducedMotion: bool): (s: State)
    ensures Valid(s)
    ensures Unrender(s.items) == section.cards
    ensures s.sched.queued == 1 && s.surface == [] && s.passes == 0
    ensures s.reducedMotion == reducedMotion && !s.resizePending && s.settlePending == 0
    ensures forall i :: 0 <= i < |s.items| ==> s.offsets[i] == Home && !s.inView[i] && s.bursts[i] == 0
  {
    UnrenderRender(section.cards);
    var n := |section.cards|;
    State(RenderCards(section.cards), reducedMotion, Request(Idle), false, 0,
          seq(n, _ => Home), seq(n, _ => false), seq(n, _ => 0), [], 0)
  }

  /** The event names an existing card, and a drag move carries the length
      of the card's accumulated offset. */
  predicate Fits(s: State, e: Event) {
    match e
    case DragStart(i) => i < |s.offsets|
    case DragMove(i, dx, dy, h) =>
      i < |s.offsets| && IsHypot(s.offsets[i].x + dx, s.offsets[i].y + dy, h)
    case DragEnd(i) => i < |s.offsets|
    case Visibility(i, _) => i < |s.inView| && i < |s.bursts|
    case _ => true
  }

  function RequestRedraw(s: State): State {
    s.(sched := Request(s.sched))
  }

  function Step(s: State, e: Event): (t: State)
    requires Fits(s, e)
    ensures t.items == s.items && t.reducedMotion == s.reducedMotion
    ensures |t.offsets| == |s.offsets| && |t.inView| == |s.inView| && |t.bursts| == |s.bursts|
  {
    match e
    case Scroll => RequestRedraw(s)
    case Resize =>
      // clearTimeout then setTimeout: one armed timer whatever came before
      s.(resizePending := true)
    case ResizeTimerFires =>
      if s.resizePending then RequestRedraw(s.(resizePending := false)) else s
    case Frame(layout) =>
      if s.sched.queued == 0 then s
      else s.(sched := Fire(s.sched), surface := Pass(layout.container, layout.items),
              passes := s.passes + 1)
    case DragStart(_) => s
    case DragMove(i, dx, dy, h) =>
      RequestRedraw(s.(offsets := s.offsets[i := Move(s.offsets[i], dx, dy, h)]))
    case DragEnd(i) =>
      s.(offsets := s.offsets[i := Home], settlePending := s.settlePending + 1)
    case SettleTimerFires =>
      if s.settlePending > 0 then RequestRedraw(s.(settlePending := s.settlePending - 1)) else s
    case Visibility(i, visible) =>
      if visible then
        s.(inView := s.inView[i := true],
           bursts := s.bursts[i := s.bursts[i] + if s.reducedMotion then 0 else 1])
      else s
  }

  /** Events the host cannot produce in this state are dropped: those naming
      a card that does not exist, and drag moves whose `hyp` is not the length
      of the card's accumulated offset. */
  function Apply(s: State, e: Event): State {
    if Fits(s, e) then Step(s, e) else s
  }

  function Run(s: State, es: seq<Event>): (t: State)
    ensures t.items == s.items
    ensures |t.offsets| == |s.offsets| && |t.inView| == |s.inView| && |t.bursts| == |s.bursts|
    decreases |es|
  {
    if |es| == 0 then s else Run(Apply(s, es[0]), es[1..])
  }

  lemma StepPreservesValid(s: State, e: Event)
    requires Valid(s) && Fits(s, e)
    ensures Valid(Step(s, e))
  {
    var t := Step(s, e);
    if e.DragMove? {
      var i := e.card;
      forall j | 0 <= j < |t.offsets|
        ensures InDisc(t.offsets[j])
      {
        if j != i {
          assert t.offsets[j] == s.offsets[j];
        }
      }
    }
  }

  /** Every reachable state is valid; in particular at most one frame
      callback is ever outstanding. */
  lemma {:induction false} RunPreservesValid(s: State, es: seq<Event>)
    requires Valid(s)
    ensures Valid(Run(s, es))
    ensures Run(s, es).sched.queued <= 1
    decreases |es|
  {
    if |es| > 0 {
      if Fits(s, es[0]) {
        StepPreservesValid(s, es[0]);
      }
      RunPreservesValid(Apply(s, es[0]), es[1..]);
    }
  }

  lemma {:induction false} RunAppend(s: State, a: seq<Event>, b: seq<Event>)
    ensures Run(s, a + b) == Run(Run(s, a), b)
    decreases |a|
  {
    if |a| == 0 {
      assert a + b == b;
    } else {
      assert (a + b)[1..] == a[1..] + b;
      RunAppend(Apply(s, a[0]), a[1..], b);
    }
  }

  function Scrolls(k: nat): seq<Event> {
    seq(k, _ => Scroll)
  }

  lemma {:induction false} ScrollsCoalesce(s: State, k: nat)
    requires k >= 1
    ensures Run(s, Scrolls(k)) == RequestRedraw(s)
    decreases k
  {
    if k == 1 {
      assert Scrolls(1)[1..] == [];
    } else {
      assert Scrolls(k)[1..] == Scrolls(k - 1);
      ScrollsCoalesce(RequestRedraw(s), k - 1);
      RequestsCoalesce(s.sched, 2);
      assert RequestRedraw(RequestRedraw(s)) == RequestRedraw(s);
    }
  }

  /** However many scroll events arrive within one frame interval, the next
      frame runs exactly one pass, drawn from that frame's geometry, and
      leaves nothing outstanding. */
  lemma ScrollBurstDrawsOnce(s: State, k: nat, layout: Layout)
    requires Valid(s) && k >= 1
    ensures Run(s, Scrolls(k) + [Frame(layout)]).passes == s.passes + 1
    ensures Run(s, Scrolls(k) + [Frame(layout)]).surface == Pass(layout.container, layout.items)
    ensures Run(s, Scrolls(k) + [Frame(layout)]).sched == Idle
  {
    RunAppend(s, Scrolls(k), [Frame(layout)]);
    ScrollsCoalesce(s, k);
  }

  /** A frame with nothing requested draws nothing. */
  lemma IdleFrameDoesNothing(s: State, layout: Layout)
    requires Valid(s) && !s.sched.scheduled
    ensures Step(s, Frame(layout)) == s
  {
  }

  /** The surface a pass leaves depends on the frame's geometry alone: the
      surface is cleared first, so earlier connectors never survive, and two
      passes over the same geometry draw the same connectors. */
  lemma FrameRedrawsFromScratch(s1: State, s2: State, layout: Layout)
    requires s1.sched.queued > 0 && s2.sched.queued > 0
    ensures Step(s1, Frame(layout)).surface == Step(s2, Frame(layout)).surface
    ensures Step(s1, Frame(layout)).passes == s1.passes + 1
    // the frame touches only the flag and the surface
    ensures Step(s1, Frame(layout)).offsets == s1.offsets
    ensures Step(s1, Frame(layout)).inView == s1.inView && Step(s1, Frame(layout)).bursts == s1.bursts
    ensures Step(s1, Frame(layout)).settlePending == s1.settlePending
    ensures Step(s1, Frame(layout)).resizePending == s1.resizePending
  {
  }

  /** Only a frame draws: every other event leaves the surface and the pass
      count as they were. */
  lemma OnlyFrameDraws(s: State, e: Event)
    requires Fits(s, e) && !e.Frame?
    ensures Step(s, e).surface == s.surface
    ensures Step(s, e).passes == s.passes
  {
  }

  /** Drag start only sets a style hint: the logical state does not change. */
  lemma DragStartNoOp(s: State, i: nat)
    requires i < |s.offsets|
    ensures Step(s, DragStart(i)) == s
  {
  }

  /** A frame over the geometry of the rendered list, every item with its
      marker and card box, draws one connector per rendered card. */
  lemma FrameDrawsOnePerCard(s: State, layout: Layout)
    requires s.sched.queued > 0
    requires |layout.items| == |s.items|
    requires forall j :: 0 <= j < |layout.items| ==> Complete(layout.items[j])
    ensures |Step(s, Frame(layout)).surface| == |s.items|
    ensures forall k :: 0 <= k < |s.items| ==>
      Step(s, Frame(layout)).surface[k] == ConnectorOfItem(layout.container, layout.items[k])
  {
    PassOnePerItem(layout.container, layout.items);
  }

  /** A drag move adds the pointer delta, keeps the card in the disc (on its
      rim, scaled by `Radius / h`, when the sum is longer than the radius),
      requests a redraw and leaves every other card's offset alone. */
  lemma DragMoveEffect(s: State, i: nat, dx: real, dy: real, h: real, j: nat)
    requires Valid(s) && Fits(s, DragMove(i, dx, dy, h)) && j < |s.offsets|
    ensures InDisc(Step(s, DragMove(i, dx, dy, h)).offsets[i])
    ensures h <= Radius ==>
      Step(s, DragMove(i, dx, dy, h)).offsets[i] == Offset(s.offsets[i].x + dx, s.offsets[i].y + dy)
    ensures h > Radius ==>
      Step(s, DragMove(i, dx, dy, h)).offsets[i]
        == Offset((s.offsets[i].x + dx) * (Radius / h), (s.offsets[i].y + dy) * (Radius / h))
    ensures Step(s, DragMove(i, dx, dy, h)).sched.scheduled
    ensures j != i ==> Step(s, DragMove(i, dx, dy, h)).offsets[j] == s.offsets[j]
    // marks, bursts and timers are untouched
    ensures Step(s, DragMove(i, dx, dy, h)).inView == s.inView
    ensures Step(s, DragMove(i, dx, dy, h)).bursts == s.bursts
    ensures Step(s, DragMove(i, dx, dy, h)).settlePending == s.settlePending
    ensures Step(s, DragMove(i, dx, dy, h)).resizePending == s.resizePending
  {
  }

  /** Drag end puts the card home at once but asks for no redraw until its
      settle timer fires; that timer then requests one, and other cards keep
      their offsets. */
  lemma DragEndSettles(s: State, i: nat, j: nat)
    requires Valid(s) && i < |s.offsets| && j < |s.offsets|
    ensures Step(s, DragEnd(i)).offsets[i] == Home
    ensures Step(s, DragEnd(i)).sched == s.sched
    ensures j != i ==> Step(s, DragEnd(i)).offsets[j] == s.offsets[j]
    // exactly one more settle timer; marks, bursts and the resize timer untouched
    ensures Step(s, DragEnd(i)).settlePending == s.settlePending + 1
    ensures Step(s, DragEnd(i)).inView == s.inView && Step(s, DragEnd(i)).bursts == s.bursts
    ensures Step(s, DragEnd(i)).resizePending == s.resizePending
    ensures Step(Step(s, DragEnd(i)), SettleTimerFires).sched.scheduled
    ensures Step(Step(s, DragEnd(i)), SettleTimerFires).offsets[i] == Home
  {
  }

  function Resizes(k: nat): seq<Event> {
    seq(k, _ => Resize)
  }

  /** Any burst of one or more resizes leaves exactly one debounce timer
      armed and requests nothing yet. */
  lemma {:induction false} ResizesArmOneTimer(s: State, k: nat)
    requires k >= 1
    ensures Run(s, Resizes(k)) == s.(resizePending := true)
    decreases k
  {
    if k == 1 {
      assert Resizes(1)[1..] == [];
    } else {
      assert Resizes(k)[1..] == Resizes(k - 1);
      ResizesArmOneTimer(s.(resizePending := true), k - 1);
    }
  }

  /** However many resizes arrive, the debounce timer's firing requests one
      redraw and disarms the timer; a second firing requests nothing more. */
  lemma ResizeDebounced(s: State, k: nat)
    requires k >= 1
    ensures Run(s, Resizes(k) + [ResizeTimerFires]) == RequestRedraw(s.(resizePending := false))
    ensures Run(s, Resizes(k) + [ResizeTimerFires, ResizeTimerFires])
         == RequestRedraw(s.(resizePending := false))
  {
    ResizesArmOneTimer(s, k);
    RunAppend(s, Resizes(k), [ResizeTimerFires]);
    RunAppend(s, Resizes(k), [ResizeTimerFires, ResizeTimerFires]);
    var t := RequestRedraw(s.(resizePending := false));
    assert [ResizeTimerFires, ResizeTimerFires][1..] == [ResizeTimerFires];
    assert Run(t, [ResizeTimerFires]) == t;
  }

  /** The `in-view` mark is never removed, and every report of a visible
      card emits one more burst unless reduced motion is preferred. */
  lemma VisibilityEffect(s: State, i: nat, visible: bool)
    requires Fits(s, Visibility(i, visible))
    ensures s.inView[i] ==> Step(s, Visibility(i, visible)).inView[i]
    ensures visible ==> Step(s, Visibility(i, visible)).inView[i]
    ensures Step(s, Visibility(i, visible)).bursts[i]
         == s.bursts[i] + (if visible && !s.reducedMotion then 1 else 0)
    ensures forall j :: 0 <= j < |s.inView| && j != i ==>
      Step(s, Visibility(i, visible)).inView[j] == s.inView[j]
    ensures forall j :: 0 <= j < |s.bursts| && j != i ==>
      Step(s, Visibility(i, visible)).bursts[j] == s.bursts[j]
    // a report requests no redraw and touches no offset or timer
    ensures Step(s, Visibility(i, visible)).sched == s.sched
    ensures Step(s, Visibility(i, visible)).offsets == s.offsets
    ensures Step(s, Visibility(i, visible)).settlePending == s.settlePending
    ensures Step(s, Visibility(i, visible)).resizePending == s.resizePending
  {
  }

  /** Over any sequence of events, a card's `in-view` mark, once set, stays
      set and its burst count never goes down: no handler removes the mark. */
  lemma {:induction false} InViewMonotone(s: State, es: seq<Event>, i: nat)
    requires i < |s.inView| && i < |s.bursts| && s.inView[i]
    ensures Run(s, es).inView[i]
    ensures Run(s, es).bursts[i] >= s.bursts[i]
    decreases |es|
  {
    if |es| > 0 {
      var t := Apply(s, es[0]);
      if Fits(s, es[0]) {
        assert t.inView[i] && t.bursts[i] >= s.bursts[i];
      }
      InViewMonotone(t, es[1..], i);
    }
  }

  /** A card that scrolls into view, out, and in again sparkles twice: the
      observer is never told to stop watching it. */
  lemma RevealSparklesOnEveryEntry(s: State, i: nat)
    requires Valid(s) && !s.reducedMotion && i < |s.items|
    ensures Run(s, [Visibility(i, true), Visibility(i, false), Visibility(i, true)]).bursts[i]
         == s.bursts[i] + 2
    ensures Run(s, [Visibility(i, true), Visibility(i, false), Visibility(i, true)]).inView[i]
  {
    var es := [Visibility(i, true), Visibility(i, false), Visibility(i, true)];
    var s1 := Step(s, Visibility(i, true));
    var s2 := Step(s1, Visibility(i, false));
    var s3 := Step(s2, Visibility(i, true));
    assert s1.bursts[i] == s.bursts[i] + 1;
    assert s3.bursts[i] == s.bursts[i] + 2;
    assert es[1..] == [Visibility(i, false), Visibility(i, true)];
    assert es[1..][1..] == [Visibility(i, true)];
    assert Run(s2, [Visibility(i, true)]) == s3;
    assert Run(s1, es[1..]) == s3;
  }
}
